=== FILE: README.md ===
# Push-session core: session actor and connection registry

A Dafny model of the server side of the push/subscription example in
`new_gonet`. It covers two pieces:

* **The per-connection session actor** (`MQPushActorIm`). It announces its
  heartbeat rate when it is created. It pushes a keep-alive on every
  send-tick until it starts closing. It detects a missed peer heartbeat on every check-tick. It
  queues inbound frames in a non-blocking channel of capacity 10, and it
  dispatches the `heartbeat` and `subscribe` commands. The goroutine running
  `run` is modelled as a pure step function, `SessionActor.Step`, over the
  cases of its `select`: send-tick, check-tick, dequeue and close-signal.
  Everything the actor asks of its agent is appended to an output list.
* **The connection lifecycle** (`NewAgent`, `CloseAgent`, `DataRecv`) acting
  on the registry `GJsActors`. The registry maps a user id to that user's
  actor. `checkToken` resolves the session token: the cookie wins,
  otherwise the URL's `token` query parameter is used. Each callback is one
  atomic step over `Lifecycle.Hub`, which holds the registry map and a
  trace of the calls made on agents and actors.

Modules:

| file | module | contents |
|---|---|---|
| common.dfy | `Common` | `Option`, `Result`, `Outcome`, `Count` |
| protocol.dfy | `Protocol` | request and response envelopes, frames, response constructors |
| actor.dfy | `SessionActor` | actor state, `NewActor`, `ProcessRecvMsg`, `DoRecvPro`, `Step`, `Run`, `SignalClose` |
| actor_lemmas.dfy | `ActorLemmas` | per-event properties, run invariants, liveness detection, FIFO round trip, `Destroy` |
| token.dfy | `TokenCheck` | `ResolveToken`, `CheckToken` |
| lifecycle.dfy | `Lifecycle` | `NewAgent`, `CloseAgent`, `CloseAgentOwnEntry`, `DataRecv` |
| lifecycle_lemmas.dfy | `LifecycleLemmas` | eviction counts, repeated connects, the one-live-session-per-user invariant |

Some external pieces become parameters:

* `url.Parse(...).Query()` is a function parameter of type
  `string -> Option<Query>`.
* `GetUserID` is a function parameter of type `Params -> string`.
* The outcome of `NewMActor` is an `Option<ActorId>` parameter. `None` means
  creation failed.
* The error returned by the attached actor's `ProcessRecvMsg` is a parameter
  of `DataRecv`, because `MActor` is an interface.
  `LifecycleLemmas.DataRecvOnSessionActor` connects this parameter to
  `SessionActor.ProcessRecvMsg`.

The model keeps these behaviours of the code:

* On reconnect the evicted actor receives `ReleaseRes()`, not `Destroy()`
  (example/module/netmodule.go:61).
* A check-tick does not test `isclosing`. Each later missed beat calls
  `a.Destroy()` again, so teardown is requested on every missed beat, not
  exactly once (`ActorLemmas.TeardownRepeats`).
* `Destroy` is not idempotent. It sends on a capacity-1 channel. After the
  loop has returned, a second call leaves a signal that is never received,
  and a third call blocks (`ActorLemmas.DestroyNotIdempotent`).
* Go's `select` gives no priority to the close signal. `Step` may take any
  ready event.
* Frames already queued when the close signal arrives are neither drained
  nor processed.

## Model

| member | source | states |
|---|---|---|
| SessionActor.NewActor | example/module/MQmodule.go:43-52 | A new actor has the heartbeat flag and the closing flag cleared and an empty inbound channel. Its only output is one heart-config response with `Success` true and rate 5. |
| SessionActor.ProcessRecvMsg | example/module/MQmodule.go:91-98 | The push fails exactly when the channel already holds 10 frames, and then the actor is unchanged. Otherwise the frame is appended at the back and nothing else changes. The channel never exceeds capacity. |
| SessionActor.DoRecvPro | example/module/MQmodule.go:100-121 | A non-text frame is accepted with no effect. Malformed JSON is an error with no effect. `heartbeat` only sets the flag. A `subscribe` with a topic adds exactly one response that echoes the request's cmd, topic, request id, sequence id and timestamp with success, and changes nothing else. Any other command is an error with no effect. The queue and the closing flag are never touched. |
| SessionActor.Step | example/module/MQmodule.go:54-84 | An event that is not ready changes nothing. Closing and having returned are never undone. Output only grows. The channel never grows and stays within capacity. Only a received close signal ends the loop. |
| SessionActor.SignalClose | example/module/MQmodule.go:85-86 | The send on the capacity-1 close channel blocks exactly when a signal is already pending. Otherwise it leaves a pending signal and changes nothing else. |
| ActorLemmas.CheckTickAfterBeat | example/module/MQmodule.go:74-76 | A check-tick after a heartbeat only clears the heartbeat flag. |
| ActorLemmas.CheckTickMissedBeat | example/module/MQmodule.go:77-81 | A check-tick without a heartbeat sets closing and appends one agent-destroy request. The loop keeps running and nothing else changes. |
| ActorLemmas.SendTickEffect | example/module/MQmodule.go:60-64 | A running actor pushes one heart response per send-tick. A closing actor emits nothing. |
| ActorLemmas.HeartbeatDequeued | example/module/MQmodule.go:68-73 | Receiving a heartbeat frame pops it and sets the heartbeat flag, with no output. |
| ActorLemmas.ClosingDropsFrame | example/module/MQmodule.go:68-71 | A closing actor pops a received frame without dispatching it. |
| ActorLemmas.BeatKeepsAlive | example/module/MQmodule.go:74-76 | A heartbeat received before a check-tick keeps a running actor out of closing, with no output. |
| ActorLemmas.TeardownRepeats | example/module/MQmodule.go:74-81 | Two check-ticks without a heartbeat append two agent-destroy requests, not one. |
| ActorLemmas.RunAfterClose | example/module/MQmodule.go:65-67 | After the loop has returned, no sequence of events changes the actor. |
| ActorLemmas.RunValid | example/module/MQmodule.go:44-45 | No run lets the inbound channel exceed its capacity of 10. |
| ActorLemmas.RunExtendsOutput | example/module/MQmodule.go:54-84 | The output of any run extends the output before it. |
| ActorLemmas.RunWhileClosing | example/module/MQmodule.go:60-81 | Once closing, an actor stays closing on every run. Its only further outputs are agent-destroy requests. Dropped frames cannot set the heartbeat flag. |
| ActorLemmas.MissedBeatCloses | example/module/MQmodule.go:74-81 | With no frame received, two check-ticks (one if no heartbeat is pending) put a running actor into closing and add an agent-destroy request. |
| ActorLemmas.PushAllOutcomes | example/module/MQmodule.go:91-97 | Pushes in a row succeed exactly while the channel has room, and fail with a full queue after that. |
| ActorLemmas.PushAllQueue | example/module/MQmodule.go:91-97 | After pushes in a row, the channel holds its old frames followed by as many of the new frames, in order, as fit into the remaining room. |
| ActorLemmas.EleventhPushFails | example/module/MQmodule.go:91-97 | On a new actor, ten pushes succeed and the eleventh fails with a full queue. The channel then holds the first ten frames in order. |
| ActorLemmas.DrainInOrder | example/module/MQmodule.go:68-73 | Receiving n frames dispatches the first n queued frames in FIFO order. |
| ActorLemmas.PushThenDrain | example/module/MQmodule.go:68-97 | Frames pushed onto an empty channel and then received are dispatched exactly as by direct in-order dispatch. |
| ActorLemmas.DestroyStops | example/module/MQmodule.go:65-88 | A close signal sent to a running actor is receivable. Receiving it ends the loop with no output and changes nothing else: the queued frames and both flags stay as they were. Afterwards no event has an effect. |
| ActorLemmas.DestroyNotIdempotent | example/module/MQmodule.go:85-88 | After the loop has returned, one more close signal stays pending forever and a further send blocks. |
| TokenCheck.ResolveToken | example/module/netmodule.go:98-111 | A non-empty cookie is the token. Otherwise an unparsable URL is an error, and a parsable one yields its first `token` query value, which is non-empty exactly when the query has one. |
| TokenCheck.CheckToken | example/module/netmodule.go:95-125 | Fails for an unparsable URL, an empty token, or an empty user id, in that order. Success happens exactly when all three checks pass. A success carries the input session id, the resolved token and the URL string. |
| TokenCheck.CookieIgnoresUrl | example/module/netmodule.go:99-100 | With a non-empty cookie, the result does not depend on URL parsing, and it succeeds exactly when the user id derived from the cookie token is non-empty. |
| TokenCheck.TokenFromQuery | example/module/netmodule.go:101-115 | With an empty cookie, a query without `token` is rejected, and a first `token` value that yields a user id becomes the token. |
| Lifecycle.NewAgent | example/module/netmodule.go:34-69 | On a token failure or a failed actor creation, the agent gets one failure response with the matching error text and is closed. The registry and the connection are unchanged. On success, the user's entry points to the new actor, other keys keep their values, and the connection records the actor and the user id. The only new trace entries are the actor's creation and, when the user was registered, one `ReleaseRes` on the evicted actor; no `WriteMsg`, `Close` or `Destroy` is recorded on the agent. `SetUserData` is the connection update, and the actor's heart-config write is in the actor's output. The earlier trace is never altered. |
| Lifecycle.CloseAgent | example/module/netmodule.go:71-84 | Destroys the attached actor, if any, and clears the attachment. Removes the entry for the connection's user id whichever actor it holds. Other keys are unchanged. |
| Lifecycle.CloseAgentOwnEntry | example/module/netmodule.go:71-84 | The corrected disconnect. It removes the user's entry only when that entry is the connection's own actor. Otherwise the registry is unchanged. |
| Lifecycle.DataRecv | example/module/netmodule.go:85-94 | Does nothing without an attached actor. Otherwise it forwards the frame and destroys the agent exactly when the push failed. The registry and the connection are unchanged. |
| LifecycleLemmas.NewAgentActors | example/module/netmodule.go:48-63 | A successful connect records the new actor's creation. It retires exactly the evicted actor, if any, and no other actor's creation or liveness changes. |
| LifecycleLemmas.NewAgentReleasesEvicted | example/module/netmodule.go:58-64 | A successful connect calls `ReleaseRes` once on the evicted actor and on no other actor, and destroys no actor. |
| LifecycleLemmas.NewAgentKeepsTracked | example/module/netmodule.go:58-67 | Connects with a fresh actor keep every live actor registered under its user. |
| LifecycleLemmas.CloseActors | example/module/netmodule.go:73-76 | A disconnect retires exactly the attached actor and changes no creation. |
| LifecycleLemmas.CloseDestroysAttached | example/module/netmodule.go:73-76 | A disconnect calls `Destroy` exactly once on the attached actor and on no other. |
| LifecycleLemmas.CloseOwnEntryKeepsTracked | example/module/netmodule.go:77-82 | The corrected disconnect keeps every live actor registered under its user, so at most one actor per user is live. |
| LifecycleLemmas.DataRecvKeepsTracked | example/module/netmodule.go:85-94 | Forwarding a frame preserves the one-live-session invariant. |
| LifecycleLemmas.DataRecvOnSessionActor | example/module/netmodule.go:85-94 | With the session actor attached, the agent is force-destroyed exactly when the actor's channel holds 10 frames. |
| LifecycleLemmas.SameUserRegistry | example/module/netmodule.go:58-64 | After several connects of one user, the registry maps that user to the latest actor and nothing else changed. |
| LifecycleLemmas.SameUserReleases | example/module/netmodule.go:58-64 | After several connects of one user, each earlier actor and the previously registered one received exactly one more `ReleaseRes`. The latest and unrelated actors received none. |
| LifecycleLemmas.FreshUserConnects | example/module/netmodule.go:58-64 | Starting from an empty registry, the latest actor is registered, each earlier one was released exactly once, and the latest was never released. |
| LifecycleLemmas.EmptyHubTracked | example/module/netmodule.go:20-22 | The initial empty registry satisfies the one-live-session invariant. |
| LifecycleLemmas.StaleCloseBreaksSingleSession | example/module/netmodule.go:77-82 | With the disconnect as written, the history connect, reconnect, close of the first connection, connect leaves two live actors for the same user. |
| LifecycleLemmas.OwnEntryCloseKeepsSingleSession | example/module/netmodule.go:77-82 | With the corrected disconnect, the same history retires the first two actors and registers only the third. |

## Findings

| source | as written | input that shows it | evidently intended | confidence | as-written member | corrected member |
|---|---|---|---|---|---|---|
| example/module/netmodule.go:77-82 | `CloseAgent` deletes the registry entry for the connection's user id, whichever actor it holds | user u connects on agent 1 (actor 10), reconnects on agent 2 (actor 20, which releases 10), then agent 1 disconnects, then u connects on agent 3 (actor 30): the close removes 20's entry, so the third connect releases nothing, and actors 20 and 30 are both live | remove the entry only when it is the closing connection's own actor, so the registry keeps at most one live session per user | medium, not executed | LifecycleLemmas.StaleCloseBreaksSingleSession | LifecycleLemmas.CloseOwnEntryKeepsTracked |

The as-written disconnect is `Lifecycle.CloseAgent`. The corrected one is
`Lifecycle.CloseAgentOwnEntry`. The invariant lemmas
(`NewAgentKeepsTracked`, `CloseOwnEntryKeepsTracked`,
`DataRecvKeepsTracked`) are stated for the corrected one.

## Left out

- `example/core_func/ws_handler.go`: the reflection-based call dispatcher shares no state with the session core.
- Real time: the 5 s and 15 s tickers are abstract send-tick and check-tick events.
- Concurrency: goroutines and the registry mutex are not modelled. Each callback is one atomic step, and `run` is a step function over scheduler-chosen events. The `WaitGroup` is not modelled either. `wg.Add(1)` runs inside the goroutine, so a `Destroy` that races with the goroutine's start is not modelled.
- The blocking half of `Destroy` (`wg.Wait`) is the predicate `DestroyReturned`, and `actor.a = nil` is not modelled.
- JSON encoding and decoding: requests arrive already decoded, with `None` for a failed decode, and responses are datatype values. The frame type of the refusal message (`common.MessageText`) is not distinguished from `common.TextMsg`.
- Logging, and panic recovery (`common.TryRecoverAndDebugPrint`). This includes the panics of a failed type assertion on the channel value or on the agent's user data.
- The `gate.Agent` transport: `WriteMsg`, `Close` and `Destroy` are recorded calls. The actor's own writes are kept in the actor's output, not in the lifecycle trace.
- URL parsing, `GetUserID`, `NewMActor` and `ReleaseRes` are not part of this model. The first three are parameters, and `ReleaseRes` is a recorded call.
- The command and response-type constants (`HEART_CMD`, `SUB_CMD`, `HEART_CONFIG_TYPE`, `RESP_OP_TYPE`) are not part of this model. The commands are taken to be `"heartbeat"` and `"subscribe"`, and response types are an enumeration.
- `ParamStru.UrlPath` is not declared in the shown struct. The model gives `Params` a `urlPath` field.
- Integer widths: sequence ids and timestamps are only copied, never computed with, so they are unbounded `int`s.
- The `EVENT_SUB_*` constants are unused by the core.
- MissedBeatCloses: only covers runs in which no frame at all is received. A run that receives frames other than heartbeats also closes, but the lemma does not state that.
- LifecycleLemmas.OneLivePerUser: an actor counts as live when it was created and has since received neither `ReleaseRes` nor `Destroy`. `ReleaseRes` is not part of this model, so whether it actually stops the evicted actor's loop is not known; the one-live-session results (`NewAgentKeepsTracked`, `CloseOwnEntryKeepsTracked`, `DataRecvKeepsTracked`) hold under this reading only. The counterexample of `StaleCloseBreaksSingleSession` does not depend on it, because the actor left live there receives neither call.
- DataRecv: takes the actor's push outcome as a parameter instead of the actor's state, because the callback sees the actor only through the `MActor` interface.

=== FILE: actor.dfy ===
/**
 * The per-connection push actor (`MQPushActorIm`) as a pure state machine.
 * The goroutine running `run` becomes `Step`, applied to whichever ready
 * case of its `select` the scheduler picks; tickers become abstract tick
 * events and everything the actor writes to its agent is appended to `out`.
 */
module SessionActor {
  import opened Common
  import opened Protocol

  /** Capacity of the inbound channel `ReceivMsgChan` (`nChanLen`). */
  const QueueCapacity: nat := 10

  /** What the actor asks of its agent. */
  datatype Effect =
    | Send(resp: Response)  // agent.WriteMsg of a marshalled response
    | DestroyAgent          // agent.Destroy after a missed heartbeat

  datatype QueueError = QueueFull
  datatype ProtocolError = MalformedJson | UnknownCmd

  /**
   * `closeBuffered` is the content of the capacity-1 channel `closeChan`;
   * `closed` records that `run` has returned.
   */
  datatype Actor = Actor(
    heartFlag: bool,
    isClosing: bool,
    queue: seq<Frame>,
    closeBuffered: bool,
    closed: bool,
    out: seq<Effect>)

  /** The cases of the `select` in `run`. */
  datatype Event =
    | SendTick     // the 5-second heartbeat-send ticker fired
    | CheckTick    // the 15-second heartbeat-check ticker fired
    | Dequeue      // a frame was received from the inbound channel
    | CloseSignal  // a value was received from `closeChan`

  /** The channel never holds more than its capacity. */
  predicate Valid(s: Actor) {
    |s.queue| <= QueueCapacity
  }

  /** Whether the `select` can pick `e`: the loop is still running and the channel read has a value. */
  predicate Ready(s: Actor, e: Event) {
    && !s.closed
    && (e == Dequeue ==> s.queue != [])
    && (e == CloseSignal ==> s.closeBuffered)
  }

  /** `NewMQActor`: a fresh actor that has announced its heartbeat rate. */
  function NewActor(): (s: Actor)
    ensures !s.heartFlag && !s.isClosing && !s.closed && !s.closeBuffered
    ensures s.queue == [] && Valid(s)
    ensures |s.out| == 1 && s.out[0].Send?
    ensures s.out[0].resp.kind == HeartConfig && s.out[0].resp.success && s.out[0].resp.rate == 5
  {
    Actor(false, false, [], false, false, [Send(HeartConfigResponse())])
  }

  datatype Pushed = Pushed(actor: Actor, outcome: Outcome<QueueError>)

  /** `ProcessRecvMsg`: a non-blocking push onto the inbound channel. */
  function ProcessRecvMsg(s: Actor, msg: Frame): (r: Pushed)
    requires Valid(s)
    ensures r.outcome.Fail? <==> |s.queue| == QueueCapacity
    ensures r.outcome.Fail? ==> r.actor == s
    ensures r.outcome.Pass? ==> r.actor == s.(queue := s.queue + [msg])
    ensures Valid(r.actor)
  {
    if |s.queue| == QueueCapacity then Pushed(s, Fail(QueueFull))
    else Pushed(s.(queue := s.queue + [msg]), Pass)
  }

  datatype Handled = Handled(actor: Actor, outcome: Outcome<ProtocolError>)

  /** `doRecvPro`: protocol dispatch of one received frame. */
  function DoRecvPro(s: Actor, f: Frame): (r: Handled)
    ensures f.OtherFrame? ==> r == Handled(s, Pass)
    ensures f == TextFrame(None) ==> r == Handled(s, Fail(MalformedJson))
    ensures f.TextFrame? && f.decoded.Some? && f.decoded.value.cmd == HeartCmd ==>
              r == Handled(s.(heartFlag := true), Pass)
    ensures f.TextFrame? && f.decoded.Some? && IsSubscribe(f.decoded.value) ==>
              && r.outcome == Pass
              && r.actor.(out := s.out) == s
              && |r.actor.out| == |s.out| + 1
              && r.actor.out[..|s.out|] == s.out
              && r.actor.out[|s.out|].Send?
              && Echoes(r.actor.out[|s.out|].resp, f.decoded.value)
    ensures f.TextFrame? && f.decoded.Some? && f.decoded.value.cmd != HeartCmd && !IsSubscribe(f.decoded.value) ==>
              r == Handled(s, Fail(UnknownCmd))
    ensures r.actor.queue == s.queue && r.actor.isClosing == s.isClosing
  {
    match f
    case OtherFrame => Handled(s, Pass)
    case TextFrame(None) => Handled(s, Fail(MalformedJson))
    case TextFrame(Some(req)) =>
      if req.cmd == HeartCmd then Handled(s.(heartFlag := true), Pass)
      else if IsSubscribe(req) then Handled(s.(out := s.out + [Send(SubscribeAck(req))]), Pass)
      else Handled(s, Fail(UnknownCmd))
  }

  /** One iteration of the `select` loop in `run`; an event that is not ready changes nothing. */
  function Step(s: Actor, e: Event): (r: Actor)
    ensures !Ready(s, e) ==> r == s
    ensures s.isClosing ==> r.isClosing
    ensures s.closed ==> r.closed
    ensures s.out <= r.out
    ensures |r.queue| <= |s.queue|
    ensures r.closed != s.closed <==> e == CloseSignal && Ready(s, e)
    ensures Valid(s) ==> Valid(r)
  {
    if !Ready(s, e) then s
    else match e
      case SendTick =>
        if s.isClosing then s else s.(out := s.out + [Send(HeartResponse())])
      case CheckTick =>
        if s.heartFlag then s.(heartFlag := false)
        else s.(isClosing := true, out := s.out + [DestroyAgent])
      case Dequeue =>
        var rest := s.(queue := s.queue[1..]);
        if s.isClosing then rest else DoRecvPro(rest, s.queue[0]).actor
      case CloseSignal =>
        s.(closeBuffered := false, closed := true)
  }

  /** The loop applied to a sequence of scheduler choices. */
  function Run(s: Actor, events: seq<Event>): Actor
    decreases |events|
  {
    if events == [] then s else Run(Step(s, events[0]), events[1..])
  }

  /**
   * The send half of `Destroy`: a value is sent on the capacity-1
   * `closeChan`. `None` means the channel already holds a value, so the
   * send blocks; it can only complete if the loop is still running and
   * later receives the pending signal.
   */
  function SignalClose(s: Actor): (r: Option<Actor>)
    ensures r.None? <==> s.closeBuffered
    ensures r.Some? ==> r.value.closeBuffered && r.value.(closeBuffered := false) == s.(closeBuffered := false)
  {
    if s.closeBuffered then None else Some(s.(closeBuffered := true))
  }

  /**
   * The waiting half of `Destroy` (`wg.Wait`) returns once `run` has
   * returned; it is only a name for `closed`, read at the call site.
   */
  predicate DestroyReturned(s: Actor) {
    s.closed
  }
}

=== FILE: actor_lemmas.dfy ===
/** Properties of the session actor over single events and over whole runs of its loop. */
module ActorLemmas {
  import opened Common
  import opened Protocol
  import opened SessionActor

  /** A run of `n` channel receives. */
  function Dequeues(n: nat): (evs: seq<Event>)
    ensures |evs| == n
    ensures forall i :: 0 <= i < n ==> evs[i] == Dequeue
  {
    if n == 0 then [] else [Dequeue] + Dequeues(n - 1)
  }

  /** Reference behaviour of the consumer: dispatch each frame in order. */
  function ProcessAll(s: Actor, msgs: seq<Frame>): Actor
    decreases |msgs|
  {
    if msgs == [] then s else ProcessAll(DoRecvPro(s, msgs[0]).actor, msgs[1..])
  }

  datatype Pushes = Pushes(actor: Actor, outcomes: seq<Outcome<QueueError>>)

  /** The producer calling `ProcessRecvMsg` once per frame, with nothing consumed in between. */
  function PushAll(s: Actor, msgs: seq<Frame>): (r: Pushes)
    requires Valid(s)
    ensures Valid(r.actor) && |r.outcomes| == |msgs|
    decreases |msgs|
  {
    if msgs == [] then Pushes(s, [])
    else
      var p := ProcessRecvMsg(s, msgs[0]);
      var rest := PushAll(p.actor, msgs[1..]);
      Pushes(rest.actor, [p.outcome] + rest.outcomes)
  }

  function Min(a: int, b: int): int {
    if a <= b then a else b
  }

  /** No frame is received, so no heartbeat can arrive. */
  predicate TicksOnly(evs: seq<Event>) {
    forall i :: 0 <= i < |evs| ==> evs[i] == SendTick || evs[i] == CheckTick
  }

  // ---------------------------------------------------------------------------
  // Single events

  /** A check-tick after a heartbeat only consumes the heartbeat. */
  lemma CheckTickAfterBeat(s: Actor)
    requires !s.closed && s.heartFlag
    ensures Step(s, CheckTick) == s.(heartFlag := false)
  {
  }

  /**
   * A check-tick without a heartbeat marks the actor closing and asks for
   * the agent to be destroyed once more; the loop keeps running. It does
   * not look at `isClosing`, so it repeats on every later missed beat.
   */
  lemma CheckTickMissedBeat(s: Actor)
    requires !s.closed && !s.heartFlag
    ensures Step(s, CheckTick).isClosing
    ensures !Step(s, CheckTick).closed
    ensures Step(s, CheckTick).out == s.out + [DestroyAgent]
    ensures Step(s, CheckTick).(isClosing := s.isClosing, out := s.out) == s
  {
  }

  /** A running actor pushes a heartbeat on each send-tick; a closing one stays silent. */
  lemma SendTickEffect(s: Actor)
    requires !s.closed
    ensures !s.isClosing ==> Step(s, SendTick) == s.(out := s.out + [Send(HeartResponse())])
    ensures s.isClosing ==> Step(s, SendTick) == s
  {
  }

  /** A received heartbeat frame only sets the heartbeat flag and pops the channel. */
  lemma HeartbeatDequeued(s: Actor, req: Request)
    requires !s.closed && !s.isClosing
    requires s.queue != [] && s.queue[0] == TextFrame(Some(req)) && req.cmd == HeartCmd
    ensures Step(s, Dequeue) == s.(queue := s.queue[1..], heartFlag := true)
  {
  }

  /** A closing actor drops a received frame without dispatching it. */
  lemma ClosingDropsFrame(s: Actor)
    requires !s.closed && s.isClosing && s.queue != []
    ensures Step(s, Dequeue) == s.(queue := s.queue[1..])
  {
  }

  /** A heartbeat received before the check keeps the actor alive through it. */
  lemma BeatKeepsAlive(s: Actor, req: Request)
    requires !s.closed && !s.isClosing
    requires s.queue != [] && s.queue[0] == TextFrame(Some(req)) && req.cmd == HeartCmd
    ensures !Run(s, [Dequeue, CheckTick]).isClosing
    ensures Run(s, [Dequeue, CheckTick]).out == s.out
  {
  }

  /** Teardown is requested again on each further missed beat: not exactly once. */
  lemma TeardownRepeats(s: Actor)
    requires !s.closed && !s.heartFlag
    ensures Run(s, [CheckTick, CheckTick]).out == s.out + [DestroyAgent, DestroyAgent]
    ensures Run(s, [CheckTick, CheckTick]).isClosing
  {
  }

  // ---------------------------------------------------------------------------
  // Runs of the loop

  /** Once `run` has returned, no event has any effect. */
  lemma {:induction false} RunAfterClose(s: Actor, evs: seq<Event>)
    requires s.closed
    ensures Run(s, evs) == s
    decreases |evs|
  {
    if evs != [] {
      RunAfterClose(Step(s, evs[0]), evs[1..]);
    }
  }

  /** Every run keeps the inbound channel within its capacity. */
  lemma {:induction false} RunValid(s: Actor, evs: seq<Event>)
    requires Valid(s)
    ensures Valid(Run(s, evs))
    decreases |evs|
  {
    if evs != [] {
      RunValid(Step(s, evs[0]), evs[1..]);
    }
  }

  /** The output of a run extends the output before it. */
  lemma {:induction false} RunExtendsOutput(s: Actor, evs: seq<Event>)
    ensures s.out <= Run(s, evs).out
    decreases |evs|
  {
    if evs != [] {
      RunExtendsOutput(Step(s, evs[0]), evs[1..]);
    }
  }

  /**
   * Closing is permanent: it never reverts, the actor sends nothing but
   * further teardown requests, and dropped frames cannot set the
   * heartbeat flag.
   */
  lemma {:induction false} RunWhileClosing(s: Actor, evs: seq<Event>)
    requires s.isClosing
    ensures Run(s, evs).isClosing
    ensures s.out <= Run(s, evs).out
    ensures forall i :: |s.out| <= i < |Run(s, evs).out| ==> Run(s, evs).out[i] == DestroyAgent
    ensures Run(s, evs).heartFlag ==> s.heartFlag
    decreases |evs|
  {
    if evs != [] {
      var t := Step(s, evs[0]);
      assert forall i :: |s.out| <= i < |t.out| ==> t.out[i] == DestroyAgent;
      assert t.heartFlag ==> s.heartFlag;
      RunWhileClosing(t, evs[1..]);
    }
  }

  lemma CountPrefix<T>(a: seq<T>, b: seq<T>, x: T)
    requires a <= b
    ensures Count(a, x) <= Count(b, x)
  {
    assert b == a + b[|a|..];
    CountConcat(a, b[|a|..], x);
  }

  /**
   * Liveness detection: with no frame received, two check-ticks (one if no
   * heartbeat is pending) put a running actor into closing and add a
   * teardown request to its output.
   */
  lemma {:induction false} MissedBeatCloses(s: Actor, evs: seq<Event>)
    requires !s.closed && TicksOnly(evs)
    requires Count(evs, CheckTick) >= (if s.heartFlag then 2 else 1)
    ensures Run(s, evs).isClosing
    ensures Count(Run(s, evs).out, DestroyAgent) > Count(s.out, DestroyAgent)
    decreases |evs|
  {
    var t := Step(s, evs[0]);
    assert Run(s, evs) == Run(t, evs[1..]);
    assert TicksOnly(evs[1..]) by {
      forall i | 0 <= i < |evs[1..]| ensures evs[1..][i] == SendTick || evs[1..][i] == CheckTick {
        assert evs[1..][i] == evs[i + 1];
      }
    }
    if evs[0] == SendTick {
      assert t.heartFlag == s.heartFlag && !t.closed;
      assert Count(evs[1..], CheckTick) == Count(evs, CheckTick);
      MissedBeatCloses(t, evs[1..]);
      RunExtendsOutput(s, [SendTick]);
      assert s.out <= t.out by {
        assert Run(s, [SendTick]) == Run(t, []);
      }
      CountPrefix(s.out, t.out, DestroyAgent);
    } else if s.heartFlag {
      assert t == s.(heartFlag := false);
      assert Count(evs[1..], CheckTick) == Count(evs, CheckTick) - 1;
      MissedBeatCloses(t, evs[1..]);
    } else {
      assert t.isClosing && t.out == s.out + [DestroyAgent];
      CountConcat(s.out, [DestroyAgent], DestroyAgent);
      RunWhileClosing(t, evs[1..]);
      CountPrefix(t.out, Run(t, evs[1..]).out, DestroyAgent);
    }
  }

  // ---------------------------------------------------------------------------
  // The inbound channel

  /** Unfolding of `PushAll` on a non-empty batch. */
  lemma PushAllCons(s: Actor, msgs: seq<Frame>)
    requires Valid(s) && msgs != []
    ensures PushAll(s, msgs).actor == PushAll(ProcessRecvMsg(s, msgs[0]).actor, msgs[1..]).actor
    ensures PushAll(s, msgs).outcomes[0] == ProcessRecvMsg(s, msgs[0]).outcome
    ensures PushAll(s, msgs).outcomes[1..] == PushAll(ProcessRecvMsg(s, msgs[0]).actor, msgs[1..]).outcomes
  {
  }

  /** Pushes succeed exactly while the channel has room. */
  lemma {:induction false} PushAllOutcomes(s: Actor, msgs: seq<Frame>)
    requires Valid(s)
    ensures forall i :: 0 <= i < |msgs| ==>
              PushAll(s, msgs).outcomes[i] == (if |s.queue| + i < QueueCapacity then Pass else Fail(QueueFull))
    decreases |msgs|
  {
    if msgs != [] {
      var p := ProcessRecvMsg(s, msgs[0]);
      var rest := PushAll(p.actor, msgs[1..]);
      PushAllOutcomes(p.actor, msgs[1..]);
      PushAllCons(s, msgs);
      var r := PushAll(s, msgs);
      forall i | 0 < i < |msgs|
        ensures r.outcomes[i] == (if |s.queue| + i < QueueCapacity then Pass else Fail(QueueFull))
      {
        assert r.outcomes[i] == r.outcomes[1..][i - 1] == rest.outcomes[i - 1];
      }
    }
  }

  /** Each successful push appends at the back and each failed one leaves the actor unchanged. */
  lemma {:induction false} PushAllQueue(s: Actor, msgs: seq<Frame>)
    requires Valid(s)
    ensures PushAll(s, msgs).actor ==
              s.(queue := s.queue + msgs[..Min(|msgs|, QueueCapacity - |s.queue|)])
    decreases |msgs|
  {
    if msgs == [] {
      assert s.queue + msgs[..0] == s.queue;
    } else {
      var p := ProcessRecvMsg(s, msgs[0]);
      PushAllQueue(p.actor, msgs[1..]);
      PushAllCons(s, msgs);
      if |s.queue| < QueueCapacity {
        var k := Min(|msgs|, QueueCapacity - |s.queue|);
        assert p.actor.queue == s.queue + [msgs[0]];
        assert msgs[1..][..Min(|msgs| - 1, QueueCapacity - |p.actor.queue|)] == msgs[1..k];
        assert s.queue + [msgs[0]] + msgs[1..k] == s.queue + msgs[..k];
      } else {
        assert p.actor == s;
      }
    }
  }

  /** From a fresh actor, ten pushes succeed and the eleventh fails. */
  lemma EleventhPushFails(msgs: seq<Frame>)
    requires |msgs| == 11
    ensures forall i :: 0 <= i < 10 ==> PushAll(NewActor(), msgs).outcomes[i] == Pass
    ensures PushAll(NewActor(), msgs).outcomes[10] == Fail(QueueFull)
    ensures PushAll(NewActor(), msgs).actor.queue == msgs[..10]
  {
    PushAllOutcomes(NewActor(), msgs);
    PushAllQueue(NewActor(), msgs);
  }

  /** Frame handling never reads or writes the inbound channel. */
  lemma DoRecvProIgnoresQueue(s: Actor, f: Frame, q: seq<Frame>)
    ensures DoRecvPro(s.(queue := q), f).actor == DoRecvPro(s, f).actor.(queue := q)
  {
  }

  /** The channel is FIFO: receiving `n` frames dispatches its first `n` entries in order. */
  lemma {:induction false} DrainInOrder(s: Actor, msgs: seq<Frame>)
    requires !s.closed && !s.isClosing && msgs <= s.queue
    ensures Run(s, Dequeues(|msgs|)) == ProcessAll(s.(queue := s.queue[|msgs|..]), msgs)
    decreases |msgs|
  {
    if msgs != [] {
      var n := |msgs|;
      var t := Step(s, Dequeue);
      assert t == DoRecvPro(s.(queue := s.queue[1..]), msgs[0]).actor;
      assert Dequeues(n)[1..] == Dequeues(n - 1);
      assert Run(s, Dequeues(n)) == Run(t, Dequeues(n - 1));
      assert msgs[1..] <= t.queue;
      DrainInOrder(t, msgs[1..]);
      assert t.queue[n - 1..] == s.queue[n..];
      DoRecvProIgnoresQueue(s.(queue := s.queue[1..]), msgs[0], s.queue[n..]);
      assert t.(queue := s.queue[n..]) == DoRecvPro(s.(queue := s.queue[n..]), msgs[0]).actor;
    }
  }

  /**
   * Round trip of the inbound channel: frames pushed onto an empty channel
   * and then received are dispatched exactly as if handled directly, in order.
   */
  lemma PushThenDrain(s: Actor, msgs: seq<Frame>)
    requires !s.closed && !s.isClosing && s.queue == [] && |msgs| <= QueueCapacity
    ensures forall i :: 0 <= i < |msgs| ==> PushAll(s, msgs).outcomes[i] == Pass
    ensures Run(PushAll(s, msgs).actor, Dequeues(|msgs|)) == ProcessAll(s, msgs)
  {
    PushAllOutcomes(s, msgs);
    PushAllQueue(s, msgs);
    var t := PushAll(s, msgs).actor;
    assert t == s.(queue := msgs);
    DrainInOrder(t, msgs);
    assert t.(queue := t.queue[|msgs|..]) == s;
  }

  // ---------------------------------------------------------------------------
  // Destroy

  /**
   * `Destroy` on a running actor with an empty close channel: the loop's
   * receive of the signal ends it, without output and leaving the queued
   * frames and both flags as they were, and nothing happens after.
   */
  lemma DestroyStops(s: Actor, evs: seq<Event>)
    requires !s.closed && !s.closeBuffered
    ensures SignalClose(s).Some?
    ensures Ready(SignalClose(s).value, CloseSignal)
    ensures DestroyReturned(Step(SignalClose(s).value, CloseSignal))
    ensures Step(SignalClose(s).value, CloseSignal).out == s.out
    ensures Step(SignalClose(s).value, CloseSignal) == s.(closed := true)
    ensures Run(Step(SignalClose(s).value, CloseSignal), evs) == Step(SignalClose(s).value, CloseSignal)
  {
    RunAfterClose(Step(SignalClose(s).value, CloseSignal), evs);
  }

  /**
   * `Destroy` is not idempotent: after the loop has returned, a second call
   * leaves a signal in the channel that nothing will ever receive, so a
   * third call blocks for good.
   */
  lemma DestroyNotIdempotent(s: Actor, evs: seq<Event>)
    requires s.closed && !s.closeBuffered
    ensures SignalClose(s).Some?
    ensures SignalClose(SignalClose(s).value).None?
    ensures Run(SignalClose(s).value, evs).closeBuffered
  {
    RunAfterClose(SignalClose(s).value, evs);
  }
}

=== FILE: common.dfy ===
/** Plain optional, result and outcome types, and a counting helper shared by every module. */
module Common {

  /** A value that may be absent (a nil pointer or a failed optional lookup). */
  datatype Option<+T> = None | Some(value: T)

  /** A value or the error that prevented computing it (Go's `(T, error)` pair). */
  datatype Result<+T, +E> = Ok(value: T) | Err(error: E)

  /** The outcome of an operation that only reports an error (Go's bare `error`). */
  datatype Outcome<+E> = Pass | Fail(error: E)

  /** Number of occurrences of `x` in `s`. */
  function Count<T(==)>(s: seq<T>, x: T): (n: nat)
    ensures n <= |s|
    ensures n == 0 <==> x !in s
    decreases |s|
  {
    if s == [] then 0
    else (if s[0] == x then 1 else 0) + Count(s[1..], x)
  }

  /** Counting distributes over concatenation. */
  lemma {:induction false} CountConcat<T>(a: seq<T>, b: seq<T>, x: T)
    ensures Count(a + b, x) == Count(a, x) + Count(b, x)
    decreases |a|
  {
    if a == [] {
      assert a + b == b;
    } else {
      assert (a + b)[1..] == a[1..] + b;
      CountConcat(a[1..], b, x);
    }
  }
}

=== FILE: lifecycle.dfy ===
/**
 * The connection lifecycle callbacks `NewAgent`, `CloseAgent` and
 * `DataRecv` acting on the process-wide registry `GJsActors`. Each
 * callback is one atomic step (the registry mutex is held across the whole
 * map read-modify-write); calls on agents and actors are recorded in a trace.
 */
module Lifecycle {
  import opened Common
  import opened Protocol
  import opened TokenCheck

  type ActorId = nat
  type AgentId = nat

  /** A call made on an agent (the transport connection) or on an actor. */
  datatype Call =
    | AgentWrite(agent: AgentId, resp: Response)
    | AgentClose(agent: AgentId)
    | AgentDestroy(agent: AgentId)
    | ActorCreate(actor: ActorId, agent: AgentId, params: Params)  // a successful NewMActor
    | ActorRelease(actor: ActorId)                                 // MActor.ReleaseRes
    | ActorDestroy(actor: ActorId)                                 // MActor.Destroy
    | ActorProcess(actor: ActorId, msg: Frame)                     // MActor.ProcessRecvMsg

  /** The registry `uActors`, keyed by `GetUserID`, and every call made so far. */
  datatype Hub = Hub(registry: map<string, ActorId>, trace: seq<Call>)

  /** A connection: its agent and the `TAgentUserData` attached to it. */
  datatype Conn = Conn(agent: AgentId, info: ConnInfo, proxy: Option<ActorId>, userId: string)

  datatype Linked = Linked(hub: Hub, conn: Conn)

  /** The registry before any connection. */
  function EmptyHub(): Hub {
    Hub(map[], [])
  }

  /** The connection was refused with `msg`: one failure response, then the agent is closed. */
  predicate Refused(h: Hub, c: Conn, r: Linked, msg: string) {
    && r.conn == c
    && r.hub.registry == h.registry
    && |r.hub.trace| == |h.trace| + 2
    && r.hub.trace[..|h.trace|] == h.trace
    && r.hub.trace[|h.trace|].AgentWrite?
    && r.hub.trace[|h.trace|].agent == c.agent
    && r.hub.trace[|h.trace|].resp.kind == OperationResult
    && !r.hub.trace[|h.trace|].resp.success
    && r.hub.trace[|h.trace|].resp.errMsg == msg
    && r.hub.trace[|h.trace| + 1] == AgentClose(c.agent)
  }

  function Refuse(h: Hub, c: Conn, msg: string): (r: Linked)
    ensures Refused(h, c, r, msg)
  {
    Linked(h.(trace := h.trace + [AgentWrite(c.agent, FailureResponse(msg)), AgentClose(c.agent)]), c)
  }

  /** The calls made on the actor a new registration evicts, if any. */
  function Evict(registry: map<string, ActorId>, user: string): seq<Call> {
    if user in registry then [ActorRelease(registry[user])] else []
  }

  /**
   * `NewAgent`. `created` is the outcome of `NewMActor`, whose body is not
   * part of this model: the new actor's id, or `None` when it failed.
   */
  function NewAgent(h: Hub, c: Conn, parse: UrlParser, userIdOf: UserIdOf, created: Option<ActorId>): (r: Linked)
    ensures CheckToken(c.info, parse, userIdOf).Err? ==> Refused(h, c, r, CheckTokenError)
    ensures CheckToken(c.info, parse, userIdOf).Ok? && created.None? ==> Refused(h, c, r, NewActorError)
    ensures CheckToken(c.info, parse, userIdOf).Ok? && created.Some? ==>
              var u := userIdOf(CheckToken(c.info, parse, userIdOf).value);
              && u != ""
              && r.hub.registry.Keys == h.registry.Keys + {u}
              && r.hub.registry[u] == created.value
              && (forall k :: k in h.registry && k != u ==> r.hub.registry[k] == h.registry[k])
              && r.conn == c.(proxy := created, userId := u)
              && h.trace <= r.hub.trace
              && |r.hub.trace| == |h.trace| + 1 + (if u in h.registry then 1 else 0)
              && r.hub.trace[|h.trace|] == ActorCreate(created.value, c.agent, CheckToken(c.info, parse, userIdOf).value)
              && (u in h.registry ==> r.hub.trace[|h.trace| + 1] == ActorRelease(h.registry[u]))
    ensures r.hub.trace[..|h.trace|] == h.trace
  {
    match CheckToken(c.info, parse, userIdOf)
    case Err(_) => Refuse(h, c, CheckTokenError)
    case Ok(p) =>
      match created
      case None => Refuse(h, c, NewActorError)
      case Some(x) =>
        var u := userIdOf(p);
        var trace := h.trace + [ActorCreate(x, c.agent, p)] + Evict(h.registry, u);
        Linked(Hub(h.registry[u := x], trace), c.(proxy := Some(x), userId := u))
  }

  /**
   * `CloseAgent` as written: destroys the attached actor, then deletes the
   * registry entry of the connection's user id, whichever actor it holds.
   */
  function CloseAgent(h: Hub, c: Conn): (r: Linked)
    ensures r.hub.registry.Keys == h.registry.Keys - {c.userId}
    ensures forall k :: k in r.hub.registry ==> r.hub.registry[k] == h.registry[k]
    ensures r.conn == c.(proxy := None)
    ensures c.proxy.None? ==> r.hub.trace == h.trace
    ensures c.proxy.Some? ==> r.hub.trace == h.trace + [ActorDestroy(c.proxy.value)]
  {
    var trace := if c.proxy.Some? then h.trace + [ActorDestroy(c.proxy.value)] else h.trace;
    Linked(Hub(h.registry - {c.userId}, trace), c.(proxy := None))
  }

  /**
   * `CloseAgent` with the deletion restricted to the connection's own
   * registration: an entry that a later connect of the same user has
   * replaced is left alone.
   */
  function CloseAgentOwnEntry(h: Hub, c: Conn): (r: Linked)
    ensures c.proxy.Some? && c.userId in h.registry && h.registry[c.userId] == c.proxy.value ==>
              r.hub.registry.Keys == h.registry.Keys - {c.userId}
    ensures !(c.proxy.Some? && c.userId in h.registry && h.registry[c.userId] == c.proxy.value) ==>
              r.hub.registry == h.registry
    ensures forall k :: k in r.hub.registry ==> k in h.registry && r.hub.registry[k] == h.registry[k]
    ensures r.conn == c.(proxy := None)
    ensures c.proxy.None? ==> r.hub.trace == h.trace
    ensures c.proxy.Some? ==> r.hub.trace == h.trace + [ActorDestroy(c.proxy.value)]
  {
    match c.proxy
    case None => Linked(h, c)
    case Some(x) =>
      var registry := if c.userId in h.registry && h.registry[c.userId] == x then h.registry - {c.userId} else h.registry;
      Linked(Hub(registry, h.trace + [ActorDestroy(x)]), c.(proxy := None))
  }

  /**
   * `DataRecv`. `pushed` is what the attached actor's `ProcessRecvMsg`
   * returns for `msg`; a failure force-destroys the agent.
   */
  function DataRecv<E>(h: Hub, c: Conn, msg: Frame, pushed: Outcome<E>): (r: Linked)
    ensures c.proxy.None? ==> r == Linked(h, c)
    ensures r.conn == c && r.hub.registry == h.registry
    ensures c.proxy.Some? ==>
              && h.trace + [ActorProcess(c.proxy.value, msg)] <= r.hub.trace
              && |r.hub.trace| == |h.trace| + (if pushed.Fail? then 2 else 1)
              && (pushed.Fail? ==> r.hub.trace[|h.trace| + 1] == AgentDestroy(c.agent))
  {
    match c.proxy
    case None => Linked(h, c)
    case Some(x) =>
      var destroy := if pushed.Fail? then [AgentDestroy(c.agent)] else [];
      Linked(h.(trace := h.trace + [ActorProcess(x, msg)] + destroy), c)
  }
}

=== FILE: lifecycle_lemmas.dfy ===
/**
 * Properties of the connection lifecycle: eviction on reconnect, repeated
 * connects of one user, and the at-most-one-live-session-per-user
 * invariant, which the registry keeps only when a disconnect removes its
 * own registration.
 */
module LifecycleLemmas {
  import opened Common
  import opened Protocol
  import opened TokenCheck
  import opened Lifecycle
  import SessionActor

  // ---------------------------------------------------------------------------
  // Who created an actor, and whether it is still live

  /** The parameters of the most recent creation of `x` in the trace. */
  function Owner(t: seq<Call>, x: ActorId): Option<Params>
    decreases |t|
  {
    if t == [] then None
    else if t[|t| - 1].ActorCreate? && t[|t| - 1].actor == x then Some(t[|t| - 1].params)
    else Owner(t[..|t| - 1], x)
  }

  /** `x` has been released (evicted) or destroyed. */
  predicate Retired(t: seq<Call>, x: ActorId) {
    ActorRelease(x) in t || ActorDestroy(x) in t
  }

  /** `x` was created and has been neither released nor destroyed; a released actor is taken to have stopped. */
  predicate Live(t: seq<Call>, x: ActorId) {
    Owner(t, x).Some? && !Retired(t, x)
  }

  function UserOf(t: seq<Call>, x: ActorId, userIdOf: UserIdOf): string
    requires Owner(t, x).Some?
  {
    userIdOf(Owner(t, x).value)
  }

  /** At most one live actor per user id. */
  ghost predicate OneLivePerUser(t: seq<Call>, userIdOf: UserIdOf) {
    forall x, y :: Live(t, x) && Live(t, y) && UserOf(t, x, userIdOf) == UserOf(t, y, userIdOf) ==> x == y
  }

  /** Every live actor is the registry entry of its user. */
  ghost predicate Tracked(h: Hub, userIdOf: UserIdOf) {
    forall x :: Live(h.trace, x) ==>
      UserOf(h.trace, x, userIdOf) in h.registry && h.registry[UserOf(h.trace, x, userIdOf)] == x
  }

  /** `x` has never appeared in a creation, release or destroy call. */
  predicate Unused(t: seq<Call>, x: ActorId) {
    Owner(t, x).None? && !Retired(t, x)
  }

  /** Calls that neither create nor retire an actor. */
  predicate Neutral(c: Call) {
    c.AgentWrite? || c.AgentClose? || c.AgentDestroy? || c.ActorProcess?
  }

  lemma OwnerSnoc(t: seq<Call>, c: Call, x: ActorId)
    ensures Owner(t + [c], x) == if c.ActorCreate? && c.actor == x then Some(c.params) else Owner(t, x)
  {
  }

  /** Appending neutral calls changes no actor's owner or liveness. */
  lemma {:induction false} NeutralCalls(t: seq<Call>, ext: seq<Call>)
    requires forall i :: 0 <= i < |ext| ==> Neutral(ext[i])
    ensures forall x: ActorId :: Owner(t + ext, x) == Owner(t, x) && (Retired(t + ext, x) <==> Retired(t, x))
    decreases |ext|
  {
    if ext == [] {
      assert t + ext == t;
    } else {
      var t' := t + ext[..|ext| - 1];
      assert t + ext == t' + [ext[|ext| - 1]];
      assert ext[..|ext| - 1] + [ext[|ext| - 1]] == ext;
      NeutralCalls(t, ext[..|ext| - 1]);
      forall x: ActorId
        ensures Owner(t + ext, x) == Owner(t, x)
        ensures Retired(t + ext, x) <==> Retired(t, x)
      {
        OwnerSnoc(t', ext[|ext| - 1], x);
      }
    }
  }

  lemma TrackedImpliesOneLive(h: Hub, userIdOf: UserIdOf)
    requires Tracked(h, userIdOf)
    ensures OneLivePerUser(h.trace, userIdOf)
  {
  }

  lemma EmptyHubTracked(userIdOf: UserIdOf)
    ensures Tracked(EmptyHub(), userIdOf)
    ensures OneLivePerUser(EmptyHub().trace, userIdOf)
  {
  }

  // ---------------------------------------------------------------------------
  // NewAgent

  /**
   * A successful connect creates the new actor for its user and retires
   * exactly the actor it evicts, if any; no other actor's creation or
   * liveness changes.
   */
  lemma NewAgentActors(h: Hub, c: Conn, parse: UrlParser, userIdOf: UserIdOf, x: ActorId)
    requires CheckToken(c.info, parse, userIdOf).Ok?
    ensures var r := NewAgent(h, c, parse, userIdOf, Some(x));
            var p := CheckToken(c.info, parse, userIdOf).value;
            var u := userIdOf(p);
            && Owner(r.hub.trace, x) == Some(p)
            && (forall y: ActorId :: y != x ==> Owner(r.hub.trace, y) == Owner(h.trace, y))
            && (forall y: ActorId :: Retired(r.hub.trace, y) <==> Retired(h.trace, y) || (u in h.registry && y == h.registry[u]))
  {
  }

  /**
   * A successful connect calls `ReleaseRes` exactly once on the actor it
   * evicts and on no other actor, and destroys no actor.
   */
  lemma NewAgentReleasesEvicted(h: Hub, c: Conn, parse: UrlParser, userIdOf: UserIdOf, x: ActorId)
    requires CheckToken(c.info, parse, userIdOf).Ok?
    ensures var r := NewAgent(h, c, parse, userIdOf, Some(x));
            var u := userIdOf(CheckToken(c.info, parse, userIdOf).value);
            && (forall y: ActorId :: Count(r.hub.trace, ActorRelease(y)) ==
                 Count(h.trace, ActorRelease(y)) + (if u in h.registry && y == h.registry[u] then 1 else 0))
            && (forall y: ActorId :: Count(r.hub.trace, ActorDestroy(y)) == Count(h.trace, ActorDestroy(y)))
  {
    var p := CheckToken(c.info, parse, userIdOf).value;
    var u := userIdOf(p);
    var r := NewAgent(h, c, parse, userIdOf, Some(x));
    var ext := [ActorCreate(x, c.agent, p)] + Evict(h.registry, u);
    assert r.hub.trace == h.trace + ext;
    forall y: ActorId
      ensures Count(r.hub.trace, ActorRelease(y)) ==
              Count(h.trace, ActorRelease(y)) + (if u in h.registry && y == h.registry[u] then 1 else 0)
      ensures Count(r.hub.trace, ActorDestroy(y)) == Count(h.trace, ActorDestroy(y))
    {
      CountConcat(h.trace, ext, ActorRelease(y));
      CountConcat(h.trace, ext, ActorDestroy(y));
      CountConcat([ActorCreate(x, c.agent, p)], Evict(h.registry, u), ActorRelease(y));
      CountConcat([ActorCreate(x, c.agent, p)], Evict(h.registry, u), ActorDestroy(y));
    }
  }

  /** Connects keep every live actor registered under its user, given a fresh actor id. */
  lemma NewAgentKeepsTracked(h: Hub, c: Conn, parse: UrlParser, userIdOf: UserIdOf, created: Option<ActorId>)
    requires Tracked(h, userIdOf)
    requires created.Some? ==> Unused(h.trace, created.value)
    ensures Tracked(NewAgent(h, c, parse, userIdOf, created).hub, userIdOf)
  {
    var r := NewAgent(h, c, parse, userIdOf, created);
    if CheckToken(c.info, parse, userIdOf).Err? || created.None? {
      var ext := r.hub.trace[|h.trace|..];
      assert r.hub.trace == h.trace + ext;
      assert |ext| == 2 && ext[0] == r.hub.trace[|h.trace|] && ext[1] == r.hub.trace[|h.trace| + 1];
      assert forall i :: 0 <= i < |ext| ==> Neutral(ext[i]);
      NeutralCalls(h.trace, ext);
      forall z: ActorId | Live(r.hub.trace, z)
        ensures UserOf(r.hub.trace, z, userIdOf) in r.hub.registry
        ensures r.hub.registry[UserOf(r.hub.trace, z, userIdOf)] == z
      {
        assert Live(h.trace, z);
      }
    } else {
      var x := created.value;
      var p := CheckToken(c.info, parse, userIdOf).value;
      var u := userIdOf(p);
      NewAgentActors(h, c, parse, userIdOf, x);
      forall z | Live(r.hub.trace, z)
        ensures UserOf(r.hub.trace, z, userIdOf) in r.hub.registry
        ensures r.hub.registry[UserOf(r.hub.trace, z, userIdOf)] == z
      {
        if z != x {
          assert Live(h.trace, z);
          var uz := UserOf(h.trace, z, userIdOf);
          assert uz != u;
        }
      }
    }
  }

  // ---------------------------------------------------------------------------
  // CloseAgent

  /** A disconnect destroys the attached actor, if any, and changes no creation. */
  lemma CloseActors(h: Hub, c: Conn)
    ensures forall y: ActorId :: Owner(CloseAgent(h, c).hub.trace, y) == Owner(h.trace, y)
    ensures forall y: ActorId :: Retired(CloseAgent(h, c).hub.trace, y) <==> Retired(h.trace, y) || c.proxy == Some(y)
    ensures CloseAgentOwnEntry(h, c).hub.trace == CloseAgent(h, c).hub.trace
  {
  }

  /** A disconnect calls `Destroy` exactly once on the attached actor and on no other. */
  lemma CloseDestroysAttached(h: Hub, c: Conn)
    ensures forall y: ActorId :: Count(CloseAgent(h, c).hub.trace, ActorDestroy(y)) ==
                        Count(h.trace, ActorDestroy(y)) + (if c.proxy == Some(y) then 1 else 0)
  {
    if c.proxy.Some? {
      forall y: ActorId ensures Count(CloseAgent(h, c).hub.trace, ActorDestroy(y)) ==
                       Count(h.trace, ActorDestroy(y)) + (if c.proxy == Some(y) then 1 else 0) {
        CountConcat(h.trace, [ActorDestroy(c.proxy.value)], ActorDestroy(y));
      }
    }
  }

  /** Disconnecting with the own-entry check keeps every live actor registered. */
  lemma CloseOwnEntryKeepsTracked(h: Hub, c: Conn, userIdOf: UserIdOf)
    requires Tracked(h, userIdOf)
    ensures Tracked(CloseAgentOwnEntry(h, c).hub, userIdOf)
    ensures OneLivePerUser(CloseAgentOwnEntry(h, c).hub.trace, userIdOf)
  {
    CloseActors(h, c);
    var r := CloseAgentOwnEntry(h, c);
    forall z | Live(r.hub.trace, z)
      ensures UserOf(r.hub.trace, z, userIdOf) in r.hub.registry
      ensures r.hub.registry[UserOf(r.hub.trace, z, userIdOf)] == z
    {
      assert Live(h.trace, z);
    }
  }

  // ---------------------------------------------------------------------------
  // DataRecv

  /** Forwarding a frame changes no actor's creation or liveness, nor the registry. */
  lemma DataRecvKeepsTracked<E>(h: Hub, c: Conn, msg: Frame, pushed: Outcome<E>, userIdOf: UserIdOf)
    requires Tracked(h, userIdOf)
    ensures Tracked(DataRecv(h, c, msg, pushed).hub, userIdOf)
  {
    var r := DataRecv(h, c, msg, pushed);
    var ext := r.hub.trace[|h.trace|..];
    assert r.hub.trace == h.trace + ext;
    if c.proxy.Some? {
      assert ext[0] == ActorProcess(c.proxy.value, msg);
      assert forall i :: 0 <= i < |ext| ==> Neutral(ext[i]);
    }
    NeutralCalls(h.trace, ext);
    forall z: ActorId | Live(r.hub.trace, z)
      ensures UserOf(r.hub.trace, z, userIdOf) in r.hub.registry
      ensures r.hub.registry[UserOf(r.hub.trace, z, userIdOf)] == z
    {
      assert Live(h.trace, z);
    }
  }

  /**
   * With the session actor behind the connection, the agent is
   * force-destroyed exactly when the actor's inbound channel is full.
   */
  lemma DataRecvOnSessionActor(h: Hub, c: Conn, msg: Frame, s: SessionActor.Actor)
    requires c.proxy.Some? && SessionActor.Valid(s)
    ensures var r := DataRecv(h, c, msg, SessionActor.ProcessRecvMsg(s, msg).outcome);
            AgentDestroy(c.agent) in r.hub.trace[|h.trace|..] <==> |s.queue| == SessionActor.QueueCapacity
  {
  }

  // ---------------------------------------------------------------------------
  // Repeated connects of one user

  /** Successful connects, in order, each with a newly created actor. */
  function ConnectAll(h: Hub, cs: seq<Conn>, ids: seq<ActorId>, parse: UrlParser, userIdOf: UserIdOf): Hub
    requires |cs| == |ids|
    decreases |cs|
  {
    if cs == [] then h
    else ConnectAll(NewAgent(h, cs[0], parse, userIdOf, Some(ids[0])).hub, cs[1..], ids[1..], parse, userIdOf)
  }

  predicate Distinct(ids: seq<ActorId>) {
    forall i, j :: 0 <= i < j < |ids| ==> ids[i] != ids[j]
  }

  /** Every connection authenticates as user `u`. */
  predicate AllResolveTo(cs: seq<Conn>, parse: UrlParser, userIdOf: UserIdOf, u: string) {
    forall i :: 0 <= i < |cs| ==>
      CheckToken(cs[i].info, parse, userIdOf).Ok? && userIdOf(CheckToken(cs[i].info, parse, userIdOf).value) == u
  }

  lemma TailFacts(cs: seq<Conn>, ids: seq<ActorId>, parse: UrlParser, userIdOf: UserIdOf, u: string)
    requires |cs| == |ids| > 1 && Distinct(ids) && AllResolveTo(cs, parse, userIdOf, u)
    ensures AllResolveTo(cs[1..], parse, userIdOf, u)
    ensures Distinct(ids[1..])
    ensures ids[0] !in ids[1..]
  {
  }

  lemma UpdateTwice<K, V>(m: map<K, V>, k: K, a: V, b: V)
    ensures m[k := a][k := b] == m[k := b]
  {
  }

  /** The first of several connects of user `u`: its registration and its releases. */
  lemma ConnectFirst(h: Hub, cs: seq<Conn>, ids: seq<ActorId>, parse: UrlParser, userIdOf: UserIdOf, u: string)
    requires |cs| == |ids| > 0 && AllResolveTo(cs, parse, userIdOf, u)
    ensures var h1 := NewAgent(h, cs[0], parse, userIdOf, Some(ids[0])).hub;
            && ConnectAll(h, cs, ids, parse, userIdOf) == ConnectAll(h1, cs[1..], ids[1..], parse, userIdOf)
            && h1.registry == h.registry[u := ids[0]]
            && (forall y: ActorId :: Count(h1.trace, ActorRelease(y)) ==
                 Count(h.trace, ActorRelease(y)) + (if u in h.registry && y == h.registry[u] then 1 else 0))
  {
    NewAgentReleasesEvicted(h, cs[0], parse, userIdOf, ids[0]);
  }

  /** After several connects of user `u`, the registry maps `u` to the latest actor and nothing else changed. */
  lemma {:induction false} SameUserRegistry(h: Hub, cs: seq<Conn>, ids: seq<ActorId>, parse: UrlParser, userIdOf: UserIdOf, u: string)
    requires |cs| == |ids| > 0 && Distinct(ids) && AllResolveTo(cs, parse, userIdOf, u)
    requires u in h.registry ==> h.registry[u] !in ids
    ensures ConnectAll(h, cs, ids, parse, userIdOf).registry == h.registry[u := ids[|ids| - 1]]
    decreases |cs|
  {
    var h1 := NewAgent(h, cs[0], parse, userIdOf, Some(ids[0])).hub;
    ConnectFirst(h, cs, ids, parse, userIdOf, u);
    var r := ConnectAll(h, cs, ids, parse, userIdOf);
    if |cs| == 1 {
      assert r == h1;
    } else {
      TailFacts(cs, ids, parse, userIdOf, u);
      SameUserRegistry(h1, cs[1..], ids[1..], parse, userIdOf, u);
      assert ids[1..][|ids[1..]| - 1] == ids[|ids| - 1];
      UpdateTwice(h.registry, u, ids[0], ids[|ids| - 1]);
    }
  }

  /**
   * After several connects of user `u`, every earlier actor, and the one
   * registered before, has received exactly one more `ReleaseRes`; the
   * latest actor and every unrelated actor have received none.
   */
  lemma {:induction false} SameUserReleases(h: Hub, cs: seq<Conn>, ids: seq<ActorId>, parse: UrlParser, userIdOf: UserIdOf, u: string)
    requires |cs| == |ids| > 0 && Distinct(ids) && AllResolveTo(cs, parse, userIdOf, u)
    requires u in h.registry ==> h.registry[u] !in ids
    ensures var r := ConnectAll(h, cs, ids, parse, userIdOf);
            && (forall i :: 0 <= i < |ids| - 1 ==>
                  Count(r.trace, ActorRelease(ids[i])) == Count(h.trace, ActorRelease(ids[i])) + 1)
            && Count(r.trace, ActorRelease(ids[|ids| - 1])) == Count(h.trace, ActorRelease(ids[|ids| - 1]))
            && (u in h.registry ==>
                  Count(r.trace, ActorRelease(h.registry[u])) == Count(h.trace, ActorRelease(h.registry[u])) + 1)
            && (forall z: ActorId :: z !in ids && (u !in h.registry || z != h.registry[u]) ==>
                  Count(r.trace, ActorRelease(z)) == Count(h.trace, ActorRelease(z)))
    decreases |cs|
  {
    var h1 := NewAgent(h, cs[0], parse, userIdOf, Some(ids[0])).hub;
    ConnectFirst(h, cs, ids, parse, userIdOf, u);
    var r := ConnectAll(h, cs, ids, parse, userIdOf);
    if |cs| == 1 {
      assert r == h1;
    } else {
      TailFacts(cs, ids, parse, userIdOf, u);
      SameUserReleases(h1, cs[1..], ids[1..], parse, userIdOf, u);
      forall i | 0 <= i < |ids| - 1
        ensures Count(r.trace, ActorRelease(ids[i])) == Count(h.trace, ActorRelease(ids[i])) + 1
      {
        if i > 0 {
          assert ids[i] == ids[1..][i - 1];
        }
      }
      assert ids[1..][|ids[1..]| - 1] == ids[|ids| - 1];
      forall z: ActorId | z !in ids && (u !in h.registry || z != h.registry[u])
        ensures Count(r.trace, ActorRelease(z)) == Count(h.trace, ActorRelease(z))
      {
        assert z !in ids[1..];
      }
      if u in h.registry {
        assert h.registry[u] !in ids[1..];
      }
    }
  }

  /** From an empty registry: the latest actor is registered, each earlier one released exactly once. */
  lemma FreshUserConnects(cs: seq<Conn>, ids: seq<ActorId>, parse: UrlParser, userIdOf: UserIdOf, u: string)
    requires |cs| == |ids| > 0 && Distinct(ids) && AllResolveTo(cs, parse, userIdOf, u)
    ensures var r := ConnectAll(EmptyHub(), cs, ids, parse, userIdOf);
            && r.registry == map[u := ids[|ids| - 1]]
            && (forall i :: 0 <= i < |ids| - 1 ==> Count(r.trace, ActorRelease(ids[i])) == 1)
            && Count(r.trace, ActorRelease(ids[|ids| - 1])) == 0
  {
    SameUserRegistry(EmptyHub(), cs, ids, parse, userIdOf, u);
    SameUserReleases(EmptyHub(), cs, ids, parse, userIdOf, u);
  }

  // ---------------------------------------------------------------------------
  // A disconnect of an evicted connection

  /**
   * With `CloseAgent` as written, closing a connection whose actor was
   * evicted unregisters the user's newer session; the next connect of that
   * user then evicts nothing, and two actors of the same user are live.
   */
  lemma StaleCloseBreaksSingleSession()
    ensures var parse: UrlParser := (s: string) => None;
            var userIdOf: UserIdOf := (p: Params) => "u";
            var info := ConnInfo("s", "t", "/ws");
            var c1 := NewAgent(EmptyHub(), Conn(1, info, None, ""), parse, userIdOf, Some(10));
            var c2 := NewAgent(c1.hub, Conn(2, info, None, ""), parse, userIdOf, Some(20));
            var closed := CloseAgent(c2.hub, c1.conn);
            var c3 := NewAgent(closed.hub, Conn(3, info, None, ""), parse, userIdOf, Some(30));
            && Live(c3.hub.trace, 20) && Live(c3.hub.trace, 30)
            && !OneLivePerUser(c3.hub.trace, userIdOf)
  {
    var parse: UrlParser := (s: string) => None;
    var userIdOf: UserIdOf := (p: Params) => "u";
    var info := ConnInfo("s", "t", "/ws");
    var c1 := NewAgent(EmptyHub(), Conn(1, info, None, ""), parse, userIdOf, Some(10));
    NewAgentActors(EmptyHub(), Conn(1, info, None, ""), parse, userIdOf, 10);
    assert c1.conn.proxy == Some(10) && c1.conn.userId == "u";
    var c2 := NewAgent(c1.hub, Conn(2, info, None, ""), parse, userIdOf, Some(20));
    NewAgentActors(c1.hub, Conn(2, info, None, ""), parse, userIdOf, 20);
    assert c2.hub.registry == map["u" := 20];
    var closed := CloseAgent(c2.hub, c1.conn);
    CloseActors(c2.hub, c1.conn);
    assert closed.hub.registry == map[];
    var c3 := NewAgent(closed.hub, Conn(3, info, None, ""), parse, userIdOf, Some(30));
    NewAgentActors(closed.hub, Conn(3, info, None, ""), parse, userIdOf, 30);
    assert Live(c3.hub.trace, 20);
    assert Live(c3.hub.trace, 30);
    assert UserOf(c3.hub.trace, 20, userIdOf) == UserOf(c3.hub.trace, 30, userIdOf);
  }

  /** The same history with the own-entry disconnect: the third connect evicts the second's actor. */
  lemma OwnEntryCloseKeepsSingleSession()
    ensures var parse: UrlParser := (s: string) => None;
            var userIdOf: UserIdOf := (p: Params) => "u";
            var info := ConnInfo("s", "t", "/ws");
            var c1 := NewAgent(EmptyHub(), Conn(1, info, None, ""), parse, userIdOf, Some(10));
            var c2 := NewAgent(c1.hub, Conn(2, info, None, ""), parse, userIdOf, Some(20));
            var closed := CloseAgentOwnEntry(c2.hub, c1.conn);
            var c3 := NewAgent(closed.hub, Conn(3, info, None, ""), parse, userIdOf, Some(30));
            && !Live(c3.hub.trace, 10) && !Live(c3.hub.trace, 20) && Live(c3.hub.trace, 30)
            && c3.hub.registry.Keys == {"u"} && c3.hub.registry["u"] == 30
  {
  }
}

=== FILE: protocol.dfy ===
/**
 * The wire envelopes exchanged between a peer and its session actor,
 * as already-decoded values: JSON encoding and decoding are not modelled.
 */
module Protocol {
  import opened Common

  /** `cmd` of a peer's heartbeat request. */
  const HeartCmd: string := "heartbeat"
  /** `cmd` of a peer's subscribe request. */
  const SubCmd: string := "subscribe"
  /** Outbound heartbeat interval in seconds, announced in the heart-config response. */
  const HeartRate: int := 5

  /** Errors written to a rejected connection. */
  const CheckTokenError: string := "check token error"
  const NewActorError: string := "NewMQActor error"

  /** The `Type` field of a response. */
  datatype ResponseType =
    | HeartConfig      // sent once when the actor is created
    | OperationResult  // subscribe acknowledgement, or a rejected connect
    | Heart            // periodic keep-alive push

  /** A peer request after JSON decoding; absent JSON fields decode to zero values. */
  datatype Request = Request(
    cmd: string,
    topic: string,
    requestId: string,
    msgSeqId: int,
    msgTimeStamp: int)

  /** A response; fields a sender does not set keep Go's zero value. */
  datatype Response = Response(
    kind: ResponseType,
    cmd: string,
    topic: string,
    requestId: string,
    success: bool,
    errMsg: string,
    msgSeqId: int,
    msgTimeStamp: int,
    rate: int)

  /**
   * An inbound transport frame. A text frame carries the JSON decoding of
   * its payload (`None` when the payload is not valid JSON for a request);
   * every other frame type is opaque.
   */
  datatype Frame = TextFrame(decoded: Option<Request>) | OtherFrame

  function HeartConfigResponse(): Response {
    Response(HeartConfig, "", "", "", true, "", 0, 0, HeartRate)
  }

  function HeartResponse(): Response {
    Response(Heart, "", "", "", false, "", 0, 0, 0)
  }

  function SubscribeAck(req: Request): Response {
    Response(OperationResult, SubCmd, req.topic, req.requestId, true, "", req.msgSeqId, req.msgTimeStamp, 0)
  }

  function FailureResponse(msg: string): Response {
    Response(OperationResult, "", "", "", false, msg, 0, 0, 0)
  }

  /** A subscribe request the actor acknowledges: the right command and a topic. */
  predicate IsSubscribe(req: Request) {
    req.cmd == SubCmd && req.topic != ""
  }

  /**
   * `resp` acknowledges `req`: an operation result reporting success that
   * echoes every identifying field of the request and sets nothing else.
   */
  predicate Echoes(resp: Response, req: Request) {
    && resp.kind == OperationResult
    && resp.cmd == req.cmd
    && resp.topic == req.topic
    && resp.requestId == req.requestId
    && resp.msgSeqId == req.msgSeqId
    && resp.msgTimeStamp == req.msgTimeStamp
    && resp.success
    && resp.errMsg == ""
    && resp.rate == 0
  }
}

=== FILE: token.dfy ===
/**
 * `checkToken`: resolution of the session parameters of a new connection.
 * URL parsing and the derivation of a user id from the parameters are
 * supplied by the caller as functions, since neither is part of this model.
 */
module TokenCheck {
  import opened Common

  /** The query of a parsed URL: each key with its values in order of appearance. */
  type Query = map<string, seq<string>>

  /** `url.Parse(s)` followed by `Query()`: `None` when the URL does not parse. */
  type UrlParser = string -> Option<Query>

  /** `GetUserID` on the resolved parameters. */
  type UserIdOf = Params -> string

  /** `Values.Get`: the first value of `key`, or the empty string. */
  function QueryGet(q: Query, key: string): string {
    if key in q && q[key] != [] then q[key][0] else ""
  }

  /** The query carries a non-empty first `token` value. */
  predicate HasToken(q: Query) {
    "token" in q && q["token"] != [] && q["token"][0] != ""
  }

  /** The part of the agent's user data that `checkToken` reads. */
  datatype ConnInfo = ConnInfo(sessionId: string, cookieVal: string, appString: string)

  /** `ParamStru`; `checkToken` never sets the numeric ids or the organisation name. */
  datatype Params = Params(
    token: string,
    sessionId: string,
    userId: int,
    groupId: int,
    orgId: int,
    orgName: string,
    urlPath: string)

  datatype AuthError = UrlInvalid | TokenEmpty | UserIdEmpty

  /** The token source: the cookie if it is set, otherwise the `token` query parameter of the URL. */
  function ResolveToken(d: ConnInfo, parse: UrlParser): (r: Result<string, AuthError>)
    ensures d.cookieVal != "" ==> r == Ok(d.cookieVal)
    ensures d.cookieVal == "" && parse(d.appString).None? ==> r == Err(UrlInvalid)
    ensures d.cookieVal == "" && parse(d.appString).Some? ==>
              r.Ok? && (r.value != "" <==> HasToken(parse(d.appString).value))
    ensures d.cookieVal == "" && parse(d.appString).Some? && HasToken(parse(d.appString).value) ==>
              r.value == parse(d.appString).value["token"][0]
  {
    if d.cookieVal != "" then Ok(d.cookieVal)
    else match parse(d.appString)
      case None => Err(UrlInvalid)
      case Some(q) => Ok(QueryGet(q, "token"))
  }

  /** The parameters `checkToken` builds around a resolved token. */
  function Candidate(d: ConnInfo, token: string): Params {
    Params(token, d.sessionId, 0, 0, 0, "", d.appString)
  }

  function CheckToken(d: ConnInfo, parse: UrlParser, userIdOf: UserIdOf): (r: Result<Params, AuthError>)
    ensures d.cookieVal == "" && parse(d.appString).None? ==> r == Err(UrlInvalid)
    ensures ResolveToken(d, parse) == Ok("") ==> r == Err(TokenEmpty)
    ensures (ResolveToken(d, parse).Ok? && ResolveToken(d, parse).value != ""
             && userIdOf(Candidate(d, ResolveToken(d, parse).value)) == "") ==> r == Err(UserIdEmpty)
    ensures r.Ok? <==> ResolveToken(d, parse).Ok? && ResolveToken(d, parse).value != ""
                       && userIdOf(Candidate(d, ResolveToken(d, parse).value)) != ""
    ensures r.Ok? ==> && r.value.sessionId == d.sessionId
                      && r.value.urlPath == d.appString
                      && r.value.token == ResolveToken(d, parse).value
                      && r.value.token != ""
                      && userIdOf(r.value) != ""
    ensures r.Ok? && d.cookieVal != "" ==> r.value.token == d.cookieVal
  {
    match ResolveToken(d, parse)
    case Err(e) => Err(e)
    case Ok(token) =>
      if token == "" then Err(TokenEmpty)
      else
        var p := Candidate(d, token);
        if userIdOf(p) == "" then Err(UserIdEmpty) else Ok(p)
  }

  /** A non-empty cookie wins: the URL is never parsed, whatever the parser would say. */
  lemma CookieIgnoresUrl(d: ConnInfo, parse1: UrlParser, parse2: UrlParser, userIdOf: UserIdOf)
    requires d.cookieVal != ""
    ensures CheckToken(d, parse1, userIdOf) == CheckToken(d, parse2, userIdOf)
    ensures CheckToken(d, parse1, userIdOf).Ok? <==> userIdOf(Candidate(d, d.cookieVal)) != ""
  {
  }

  /** Without a cookie, the first `token` query value is the token; a URL without one is rejected. */
  lemma TokenFromQuery(d: ConnInfo, parse: UrlParser, userIdOf: UserIdOf, q: Query)
    requires d.cookieVal == "" && parse(d.appString) == Some(q)
    ensures "token" !in q ==> CheckToken(d, parse, userIdOf) == Err(TokenEmpty)
    ensures "token" in q && q["token"] != [] && q["token"][0] != "" && userIdOf(Candidate(d, q["token"][0])) != "" ==>
              CheckToken(d, parse, userIdOf).Ok? && CheckToken(d, parse, userIdOf).value.token == q["token"][0]
  {
  }
}
